=== FILE: README.md ===
# RecipeAPI persistence mapping in Dafny

This project models the persistence layer of the RecipeAPI service: the way a
`recipe` is saved to, loaded from and listed out of Redis. The layout is:

- a counter `recipe_id` that hands out ids;
- an append-only index list `recipes` that holds every created id in creation order;
- one hash `recipe:<id>` with the fields `id`, `title`, `difficulty`, `prep_period` and `method`;
- three lists `recipe:<id>:categories`, `recipe:<id>:ingredients` and `recipe:<id>:images`.

The Redis server is an immutable value, `RedisModel.Store`. Each operation is a
pure transition over it:

- `Recipes.Save` returns the next store, the id the recipe ends up with, and the error.
- `Recipes.Load` returns a recipe or an error.
- `Recipes.List` returns a page of `{id, title}` summaries or an error.

`recipe.go` is the current version of the code and the primary model.
`main.go` holds an older copy of the same three functions, modelled in
`LegacyRecipes`. It writes the same Redis layout, with two differences:

- Its `prep_period` is a `time.Duration`, kept in the hash as its text form.
- Its `list` returns titles only.

Duration formatting and parsing are library calls. They stay opaque and are passed in as a `DurationText` value.

Modules, leaves first:

- `Outcomes`: the `Option`, `Result` and `Outcome` types.
- `Machine`: Go's `int64`, its wrap-around arithmetic, and the saturation `strconv` applies.
- `Decimal`: `strconv.FormatInt` and `strconv.Atoi`, with the proof that the id written into a hash parses back.
- `RedisModel`: the store, and the Redis commands it answers (HGETALL, LRANGE).
- `Paging`: the page window over the index.
- `Recipes`: save, load and list of `recipe.go`.
- `RecipeLaws`: the layout invariant `Wf`, and laws about one save, load or list.
- `RecipeHistory`: laws about whole sequences of saves.
- `LegacyRecipes`: `main.go`'s variant, and the `initDB` seeding as a lemma.

Four behaviours of the code shape the model:

- In `list`, an indexed id without a hash does not give an empty title. `HMGET` yields `nil`, and the `.(string)` assertion panics. The model returns `MissingHash(id)` for this case. `RecipeLaws.ListIsIndexSlice` proves it cannot happen on a store that only saves have written.
- A list field given as an empty, non-nil slice does not round-trip. The queued `RPUSH` has no values, so Redis rejects it, and the whole `MULTI`/`EXEC` transaction is discarded. By then the counter has already advanced and the id has been assigned. The model returns `ExecAborted` for this case.
- `INCR` refuses to go past the int64 maximum. The model returns `CounterOverflow` for this case.
- `load` reads the list fields with `LRANGE`, which gives an empty, non-nil slice for a missing key. So a loaded list is always `Some(...)`.

## Model

| member | source | states |
|---|---|---|
| Recipes.Save | recipe.go:22-67 | The counter is incremented, and its new value becomes the id, only when `id == 0`. The id stays consumed even when the transaction that follows is discarded, and at the int64 maximum INCR fails with nothing changed; an update keeps the id and the counter. A successful create appends exactly the new id to the index; an update, or a failed save, leaves the index alone. A successful save overwrites all five hash fields of `recipe:<id>` and no other hash. A list key that exists keeps its value. A new list key belongs to this id and holds the caller's non-empty values. Every non-nil list field is stored after a successful save. The transaction fails exactly when an empty non-nil list would be pushed to a missing key. A save succeeds exactly when INCR does not overflow and no empty push is queued, so an update with nil or non-empty lists always succeeds. |
| Recipes.Commit | recipe.go:34-64 | The batch appends the id to the index only on create and writes the hash record. It is discarded whole, leaving the store as it was, exactly when some field would push an empty list. |
| Recipes.QueuedPush | recipe.go:48-57 | saveList queues a push exactly when the value is non-nil and the key does not exist yet, and it pushes the caller's values. |
| Recipes.PushField | recipe.go:48-57 | One saveList call keeps the write-once invariant: existing keys keep their values, and new keys belong to the saved id and hold the caller's values. It never drops a key of this id, and it leaves a non-nil field stored. |
| Recipes.PushLists | recipe.go:59-61 | The three saveList calls keep every existing list key. Any new key belongs to the saved id and holds the caller's value for that field. Every non-nil field ends up stored. |
| Recipes.Load | recipe.go:69-116 | The result is an error exactly when `id <= 0`, and that error is the invalid-id error. Otherwise the recipe carries the requested id and the hash's scalar fields. All scalar fields are empty when there is no hash: there is no not-found error. Each list field is the stored list, or empty. |
| Recipes.Summaries | recipe.go:131-149 | The HMGET loop succeeds exactly when every id in the window has a hash. It then yields one summary per id, in window order, with the parsed `id` and the `title`. Otherwise it stops at an id without a hash. |
| Recipes.Summary | recipe.go:143-148 | A list entry built from an HMGET reply carries the title, and the id whenever the stored `id` field is the decimal text of an int64. Every other field is left empty or nil, as the `recipe{ID, Title}` literal leaves it. |
| Recipes.List | recipe.go:118-152 | A page `<= 0` gives the invalid-page error. Otherwise the result is the index slice at positions [(page-1)*20, page*20), at most 20 entries. It succeeds exactly when every entry has a hash, and it lists them in index order. |
| Recipes.ListAsWritten | recipe.go:118-152 | This is `list` with int64 wrap-around in the window bounds. It rejects pages `<= 0` and never returns more entries than the index holds. |
| RedisModel.LRange | recipe.go:126 | For non-negative bounds, LRANGE returns the slice from start to stop inclusive, cut at the end of the list. `0 -1` returns the whole list. |
| RedisModel.HashAt | recipe.go:91-98 | HGETALL of a missing hash reads as empty strings in every field. Otherwise it reads the stored record. |
| RedisModel.ListAt | recipe.go:82-84 | LRANGE 0 -1 of a list key returns the stored list, or the empty list when the key is missing. |
| Paging.Window | recipe.go:123-126 | LRANGE over (page-1)*20 .. page*20-1 is exactly the index slice [(page-1)*20, page*20) cut at the index end. It holds at most 20 entries, and it is empty exactly when the page starts past the end. |
| Paging.WindowAsWritten | recipe.go:124-126 | LRANGE with both bounds computed in wrapping int64 arithmetic. It never returns more entries than the index holds, and for every page up to 461168601842738790 it is the exact window. |
| Paging.WindowAsWrittenAtMostPage | recipe.go:124-126 | Even when the int64 bounds wrap, `to` stays `from + 19` modulo 2^64, so LRANGE as written returns at most 20 entries of an index that fits in an int64. |
| Paging.WindowAsWrittenIsExact | recipe.go:124 | For every page up to 461168601842738790, the int64 bounds do not wrap and give the exact window. |
| Paging.WrappingPageRepeatsFirstPage | recipe.go:124-126 | At page 4611686018427387905, the wrapped bounds are 0 and 19. The code as written reads page 1 again, while the intended window is empty. |
| Machine.Wrap64 | recipe.go:124 | Go's int64 arithmetic gives the int64 that is congruent to the exact result modulo 2^64. It is the exact result when that fits. |
| Decimal.AtoiFormatInt | recipe.go:144 | The decimal id that HMSET stores parses back with `strconv.Atoi` to the same id. |
| Decimal.FormatIntInjective | recipe.go:40 | Distinct ids give distinct `recipe:%d` keys. |
| Decimal.FormatInt | recipe.go:36-41 | The `%d` text of an int64 argument is non-empty, starts with a minus sign exactly for negative values, and is decimal digits after that sign. `Decimal.AtoiFormatInt` states that its value comes back. |
| Decimal.Atoi | recipe.go:144 | `strconv.Atoi` with its error dropped, on numerals: an optional sign followed by digits reads as its value, saturated at the int64 limits. `Decimal.AtoiSyntaxError` and `Decimal.AtoiRangeError` state the other inputs. |
| Decimal.AtoiSyntaxError | recipe.go:144 | Text that is not a numeral reads as 0, unless its leading digits already pass 2^64 - 1. |
| Decimal.AtoiRangeError | recipe.go:144 | Once the digits after the sign pass 2^64 - 1, `strconv.ParseUint` stops with a range error, whatever characters follow. The value then saturates to MinInt64 for a leading '-' and to MaxInt64 otherwise. |
| Decimal.RangeErrorBeforeSyntaxError | recipe.go:144 | Twenty nines followed by a letter read as MaxInt64, and as MinInt64 with a leading minus: the range error comes before the syntax error. |
| RecipeLaws.SavePreservesWf | recipe.go:25-61 | Every save, failed or not, keeps the layout invariant. The counter stays non-negative. The index stays strictly increasing, with entries in 1..counter. Every indexed id has a hash storing its own id. No list is empty. |
| RecipeLaws.IndexLengthBound | recipe.go:25-39 | The index never holds more entries than the counter has handed out. |
| RecipeLaws.SaveLoadRoundTrip | recipe.go:40-110 | After a successful save under a positive id, load returns the saved scalar fields. Each list field is the value of the first save that wrote it, or empty when none did. |
| RecipeLaws.ListIsIndexSlice | recipe.go:123-149 | On a well-formed store, list never fails for a positive page. It returns the index entries of the window in order, each id parsed back to itself, with its title. |
| RecipeLaws.EntryOnItsPage | recipe.go:123-126 | Every index entry at position p appears on page p/20+1, at position p%20. |
| RecipeLaws.ListAsWrittenAtMostPage | recipe.go:124-149 | On a well-formed store, `list` as written returns at most one page of 20 entries for every positive page, wrapped bounds included. |
| RecipeLaws.ListAsWrittenIsExact | recipe.go:124-126 | Up to page 461168601842738790, `list` as written equals the corrected `List`. |
| RecipeLaws.ListAsWrittenRepeatsFirstPage | recipe.go:124-126 | On any non-empty well-formed store, `list` as written returns the non-empty page 1 at page 4611686018427387905, where the corrected `List` returns the empty page. |
| RecipeHistory.ReplayPreservesWf | recipe.go:25-61 | Any sequence of saves keeps the layout invariant, so the index stays strictly increasing and bounded by the counter. |
| RecipeHistory.ServerIsWf | recipe.go:22-67 | Any sequence of saves run one after another on a server that starts empty keeps the layout invariant. |
| RecipeHistory.ReplayAppendOnly | recipe.go:25-39 | Over any sequence of saves, the counter never decreases and the old index stays a prefix of the new one. |
| RecipeHistory.ReplayWriteOnce | recipe.go:48-61 | Once a list key exists, no later save changes it. |
| RecipeHistory.FirstWriteWins | recipe.go:48-110 | The first save that stores a list field fixes what load returns for that field, whatever saves follow. |
| RecipeHistory.CreatesIncrease | recipe.go:25-32 | A create that follows another, with any saves in between, gets a strictly larger id. |
| RecipeHistory.FreshCreateAppends | recipe.go:25-46 | Below the counter's limit, a create with no empty non-nil list always succeeds. It takes counter+1 as its id, appends that id to the index and writes its hash. |
| RecipeHistory.NumberedStep | recipe.go:25-46 | One more create after n creates from an empty server gets id n+1 and extends the numbering. |
| RecipeHistory.CreatesFromEmpty | recipe.go:25-46 | n creates from an empty server leave the counter at n and the index exactly 1..n. Hash `recipe:<k>` holds the k-th recipe's fields. |
| RecipeHistory.PanCakeScenario | recipe.go:22-116 | A create gets id 1. An update with a new title and new categories changes the loaded title but keeps the first categories. |
| RecipeHistory.NumberedPage | recipe.go:123-149 | After numbered creates, each page lists the ids and titles of its window positions. |
| RecipeHistory.TwentyFiveCreates | recipe.go:118-152 | After 25 creates, page 1 lists ids 1..20, page 2 lists ids 21..25, and page 3 is empty. |
| LegacyRecipes.Save | main.go:26-71 | The counter is incremented, and its new value becomes the id, only when `id == 0`; at the int64 maximum INCR fails with nothing changed. Only a successful create appends to the index. A successful save writes the hash with `prep_period` as the duration's text, beside `id`, `title`, `difficulty` and `method`. The transaction is discarded exactly when an empty non-nil list would be pushed to a missing key, and a failed save leaves the index, hashes and lists as they were. Existing list keys are never changed. A new list key belongs to the saved id and holds the caller's non-empty, non-nil values. Each non-nil list is stored after a successful save. A save succeeds exactly when INCR does not overflow and no empty push is queued, so an update with nil or non-empty lists always succeeds. |
| LegacyRecipes.Load | main.go:73-120 | The result is an error exactly when `id <= 0`. Otherwise the prep period is the parsed duration, or zero when the text does not parse, with no error. The other fields are the stored ones. |
| LegacyRecipes.Stored | main.go:44-50 | The values handed to HMSET and the list pushes are the recipe's own, except that `prep_period` goes out as the duration's text, `prepPeriod.String()`. `LegacyRecipes.SaveLoadRoundTrip` states when that text parses back to the same duration. |
| LegacyRecipes.Titles | main.go:135-149 | The HMGET loop succeeds exactly when every id in the window has a hash, and then yields their titles in order. |
| LegacyRecipes.ListTitles | main.go:122-152 | A page `<= 0` is rejected. Otherwise the result holds the titles of the index slice [(page-1)*20, page*20), at most 20, in index order. |
| LegacyRecipes.ListTitlesAsWritten | main.go:122-152 | This is `list` with wrapping int64 bounds. It rejects pages `<= 0` and never returns more entries than the index holds. |
| LegacyRecipes.SaveLoadRoundTrip | main.go:44-114 | After a successful save, load returns the saved fields. The prep period comes back whenever parsing its text gives it back. Each list field is the first written value. |
| LegacyRecipes.ListTitlesIsIndexSlice | main.go:127-149 | On a well-formed store, list never fails for a positive page and returns the window's titles in index order. |
| LegacyRecipes.ListTitlesAsWrittenAtMostPage | main.go:128-149 | On a well-formed store, the older `list` as written returns at most 20 titles for every positive page, wrapped bounds included. |
| LegacyRecipes.ListTitlesAsWrittenIsExact | main.go:128-130 | Up to page 461168601842738790, `list` as written equals the corrected `ListTitles`. |
| LegacyRecipes.ListTitlesAsWrittenRepeatsFirstPage | main.go:128-130 | At page 4611686018427387905, `list` as written returns page 1's titles, where the corrected `ListTitles` returns the empty page. |
| LegacyRecipes.SeedIsFreshCreate | main.go:195-203 | Each seeded recipe is a create whose lists are all non-empty. |
| LegacyRecipes.SeedRecipes | main.go:205-211 | Iteration i saves a create titled `PanCake-<i>`. |
| LegacyRecipes.SeedRecipe | main.go:195-208 | The recipe initDB saves on iteration i: id 0, title `PanCake-<i>`, difficulty `easy`, ten minutes, an empty method, and two values in each list. |
| LegacyRecipes.NumberedTitles | main.go:127-149 | After numbered creates, each page lists the titles at its window positions. |
| LegacyRecipes.InitDBSeeds | main.go:194-212 | After initDB's hundred creates, the index is 1..100. Page 5 lists PanCake-80 .. PanCake-99, and page 6 is empty. |

## Left out

- HTTP handling in `handlers.go` and in `main.go`'s `main` is not modelled: routing, JSON decoding and encoding, `strconv.Atoi` on the path and query parameters, and `handleError`. Neither are the handler stubs and the `load` print helper in `main.go`. All of these are I/O plumbing around the three operations.
- The Redis transport is not modelled: the network client, pipelining, and `MULTI`/`EXEC` as a concurrency mechanism. Each save is one sequential transition, and its existence checks read the state before the save. The race between the immediate `EXISTS` and the queued `RPUSH` under concurrent saves is therefore not modelled.
- Store failures other than the two that follow from the inputs (the `INCR` overflow and the aborted transaction) are not modelled. This covers network errors and a server that is unavailable. They would be nondeterministic outcomes, and neither the counter nor any key would be rolled back.
- `time.Duration.String` and `time.ParseDuration` are library calls. They are parameters (`DurationText`), and the duration round trip is a precondition of `LegacyRecipes.SaveLoadRoundTrip`.
- Key strings are not modelled. `recipe:%d` and `recipe:%d:<field>` are represented by the id, or the id and a field tag. Formatting is injective (`Decimal.FormatIntInjective`). Index entries are represented as integers, not as their decimal text.
- `initDB` calls `log.Fatal` when a save fails. This is not modelled: `LegacyRecipes.InitDBSeeds` proves that every seeded save succeeds.
- Recipes.ListAsWritten: states only the page guard and a bound by the index length. The wrapped bounds can name windows other than the intended one, as the findings below show, so it has no slice contract. The bound of one page is proved separately by `RecipeLaws.ListAsWrittenAtMostPage`.
- LegacyRecipes.ListTitlesAsWritten: states only the page guard and a bound by the index length, for the same reason. The bound of one page is proved by `LegacyRecipes.ListTitlesAsWrittenAtMostPage`.
- Concurrent creates are not modelled, and the strictly increasing index (`RecipeLaws.Wf`, `RecipeHistory.ReplayPreservesWf`, `RecipeHistory.ServerIsWf`) does not hold under them. `INCR` (recipe.go:27) and the `MULTI`/`EXEC` block (recipe.go:34-64) are separate round trips. So the `EXEC` of id 6 can commit before that of id 5, and the index then holds 6 before 5. The model covers saves run one after another.
- Go's `int` is assumed to be 64 bits wide, so `page`, the ids and `strconv.Atoi` are modelled as int64. On a 32-bit build `page` is at most 2^31 - 1, `(page-1)*20` fits in an int64, and the wrap-around in the findings below cannot happen.

## Findings

| source | as written | input that shows it | evidently intended | confidence | as-written member | corrected member |
|---|---|---|---|---|---|---|
| recipe.go:124 | `from` and `to` are computed as `(page-1)*20` and `page*20-1` in int64, and they wrap for pages above 461168601842738790 | on 64-bit builds, `list(4611686018427387905)`: `from` wraps to 0 and `to` to 19, so LRANGE returns page 1 again | a page past the end of the index lists nothing | high; not executed | Recipes.ListAsWritten (RecipeLaws.ListAsWrittenRepeatsFirstPage) | Recipes.List (RecipeLaws.ListIsIndexSlice) |
| main.go:128 | the same int64 wrap-around in the older `list` | on 64-bit builds, `list(4611686018427387905)` returns the titles of page 1 | a page past the end of the index lists nothing | high; not executed | LegacyRecipes.ListTitlesAsWritten (LegacyRecipes.ListTitlesAsWrittenRepeatsFirstPage) | LegacyRecipes.ListTitles (LegacyRecipes.ListTitlesIsIndexSlice) |

=== FILE: decimal.dfy ===
/**
  Decimal text of integers, as `strconv.FormatInt(n, 10)` (also what `fmt`'s `%d`
  and the Redis client write for an int64 argument) and `strconv.Atoi` produce and read.
 */
module Decimal {
  import opened Machine

  predicate IsDigit(c: char) {
    '0' <= c <= '9'
  }

  predicate AllDigits(s: string) {
    forall i :: 0 <= i < |s| ==> IsDigit(s[i])
  }

  function DigitChar(d: nat): (c: char)
    requires d < 10
    ensures IsDigit(c)
  {
    ('0' as int + d) as char
  }

  function DigitValue(c: char): (d: nat)
    requires IsDigit(c)
    ensures d < 10
  {
    c as int - '0' as int
  }

  /** The shortest decimal spelling of a natural number, most significant digit first. */
  function FormatNat(n: nat): string
    decreases n
  {
    if n < 10 then [DigitChar(n)] else FormatNat(n / 10) + [DigitChar(n % 10)]
  }

  /** The value of a string of decimal digits. */
  function DigitsValue(s: string): nat
    requires AllDigits(s)
  {
    if |s| == 0 then 0 else DigitsValue(s[..|s| - 1]) * 10 + DigitValue(s[|s| - 1])
  }

  /** `strconv.FormatInt(n, 10)`: an optional minus sign followed by the digits of |n|. */
  function FormatInt(n: int): (r: string)
    ensures |r| >= 1
    ensures r[0] == '-' <==> n < 0
    ensures AllDigits(if n < 0 then r[1..] else r)
  {
    if n < 0 then
      DigitsOfFormatNat(-n);
      assert ("-" + FormatNat(-n))[1..] == FormatNat(-n);
      "-" + FormatNat(-n)
    else
      DigitsOfFormatNat(n);
      FormatNat(n)
  }

  /** The digits of `s` after an optional leading sign. */
  function Unsigned(s: string): string {
    if |s| > 0 && (s[0] == '-' || s[0] == '+') then s[1..] else s
  }

  /** The syntax `strconv.Atoi` accepts: an optional sign, then at least one decimal digit. */
  predicate Numeral(s: string) {
    |s| > 0 && |Unsigned(s)| > 0 && AllDigits(Unsigned(s))
  }

  /** The mathematical value a numeral denotes. */
  function NumeralValue(s: string): int
    requires Numeral(s)
  {
    if s[0] == '-' then -(DigitsValue(Unsigned(s)) as int) else DigitsValue(Unsigned(s))
  }

  /** The length of the run of decimal digits `s` starts with. */
  function DigitRun(s: string): (n: nat)
    ensures n <= |s|
    ensures AllDigits(s[..n])
    ensures n < |s| ==> !IsDigit(s[n])
    ensures n == |s| <==> AllDigits(s)
  {
    if |s| == 0 || !IsDigit(s[0]) then 0
    else
      var n := 1 + DigitRun(s[1..]);
      assert s[..n] == [s[0]] + s[1..][..n - 1];
      assert AllDigits(s[1..]) ==> AllDigits(s);
      n
  }

  /**
    Whether `strconv.ParseUint` stops with a range error: it reads digits left to
    right and gives up as soon as the value read so far passes 2^64 - 1, before
    it looks at any later character.
   */
  predicate RangeError(s: string) {
    var u := Unsigned(s);
    DigitsValue(u[..DigitRun(u)]) > MaxUint64
  }

  /**
    `strconv.Atoi` with its error discarded, as `id, _ := strconv.Atoi(...)` does:
    an optional sign and at least one digit are required, otherwise the value is
    0; a value outside the int64 range saturates, and so does a run of leading
    digits that passes 2^64 - 1 whatever follows it.
   */
  function Atoi(s: string): (r: Int64)
    ensures Numeral(s) && MinInt64 <= NumeralValue(s) <= MaxInt64 ==> r == NumeralValue(s)
    ensures Numeral(s) && NumeralValue(s) > MaxInt64 ==> r == MaxInt64
    ensures Numeral(s) && NumeralValue(s) < MinInt64 ==> r == MinInt64
  {
    var u := Unsigned(s);
    var run := DigitRun(u);
    assert Numeral(s) ==> u[..run] == u;
    if DigitsValue(u[..run]) > MaxUint64 then
      if s[0] == '-' then MinInt64 else MaxInt64
    else if |u| == 0 || run < |u| then 0
    else if s[0] == '-' then Clamp64(-(DigitsValue(u) as int))
    else Clamp64(DigitsValue(u))
  }

  /** Text that is not a numeral, and whose leading digits stay within 2^64 - 1, reads as 0. */
  lemma AtoiSyntaxError(s: string)
    requires !Numeral(s) && !RangeError(s)
    ensures Atoi(s) == 0
  {
  }

  /** Leading digits worth more than 2^64 - 1 saturate by sign, whatever follows them. */
  lemma AtoiRangeError(s: string)
    requires RangeError(s)
    ensures Atoi(s) == if s[0] == '-' then MinInt64 else MaxInt64
  {
  }

  /** `k` nines. */
  function Nines(k: nat): string {
    seq(k, _ => '9')
  }

  /** 10 to the power `k`. */
  function Pow10(k: nat): nat {
    if k == 0 then 1 else 10 * Pow10(k - 1)
  }

  /** `k` nines are worth 10^k - 1. */
  lemma {:induction false} NinesValue(k: nat)
    ensures AllDigits(Nines(k)) && DigitsValue(Nines(k)) == Pow10(k) - 1
  {
    if k > 0 {
      NinesValue(k - 1);
      assert Nines(k)[..k - 1] == Nines(k - 1);
    }
  }

  /** A range error wins over a later syntax error: twenty nines and a letter read as an int64 limit. */
  lemma RangeErrorBeforeSyntaxError()
    ensures Atoi(Nines(20) + "x") == MaxInt64
    ensures Atoi("-" + Nines(20) + "x") == MinInt64
  {
    var u := Nines(20) + "x";
    NinesValue(20);
    assert Pow10(10) == 10_000_000_000;
    assert Pow10(20) == 100_000_000_000_000_000_000;
    assert u[..20] == Nines(20);
    assert DigitRun(u) == 20 by {
      assert AllDigits(u[..20]);
      assert !IsDigit(u[20]);
      DigitRunOfPrefix(u, 20);
    }
    assert Unsigned(u) == u;
    assert "-" + Nines(20) + "x" == "-" + u;
    assert Unsigned("-" + u) == u;
  }

  /** A digit prefix followed by a non-digit is the whole digit run. */
  lemma {:induction false} DigitRunOfPrefix(s: string, n: nat)
    requires n < |s| && AllDigits(s[..n]) && !IsDigit(s[n])
    ensures DigitRun(s) == n
  {
    if n > 0 {
      assert IsDigit(s[..n][0]);
      assert s[1..][..n - 1] == s[..n][1..];
      DigitRunOfPrefix(s[1..], n - 1);
    }
  }

  /** Reading back the digits of a natural number yields the number. */
  lemma {:induction false} DigitsOfFormatNat(n: nat)
    ensures |FormatNat(n)| >= 1
    ensures AllDigits(FormatNat(n))
    ensures DigitsValue(FormatNat(n)) == n
    decreases n
  {
    if n >= 10 {
      DigitsOfFormatNat(n / 10);
      var s := FormatNat(n);
      assert s == FormatNat(n / 10) + [DigitChar(n % 10)];
      assert s[..|s| - 1] == FormatNat(n / 10);
    }
  }

  /** The decimal text of an int64 parses back to the same int64. */
  lemma AtoiFormatInt(n: Int64)
    ensures Atoi(FormatInt(n)) == n
  {
    var s := FormatInt(n);
    var m: nat := if n < 0 then -(n as int) else n;
    DigitsOfFormatNat(m);
    if n < 0 {
      assert s[1..] == FormatNat(m);
    } else {
      assert IsDigit(FormatNat(m)[0]);
    }
    assert Unsigned(s) == FormatNat(m);
    assert Numeral(s) && NumeralValue(s) == n;
  }

  /** Every int64's decimal text parses back to it. */
  lemma FormatIntParsesBack()
    ensures forall n: Int64 {:trigger FormatInt(n)} :: Atoi(FormatInt(n)) == n
  {
    forall n: Int64
      ensures Atoi(FormatInt(n)) == n
    {
      AtoiFormatInt(n);
    }
  }

  /** Distinct int64 values have distinct decimal texts, so a key built from the text names one id. */
  lemma FormatIntInjective(a: Int64, b: Int64)
    requires FormatInt(a) == FormatInt(b)
    ensures a == b
  {
    AtoiFormatInt(a);
    AtoiFormatInt(b);
  }
}

=== FILE: legacy_recipes.dfy ===
/**
  main.go: the older copy of `recipe`, `save`, `load` and `list`. It writes the same
  Redis layout as recipe.go, with two differences: `prepPeriod` is a
  `time.Duration`, kept in the hash as its text form, and `list` returns titles
  only. Duration formatting and parsing are library calls and stay opaque: they
  are passed in as a `DurationText`.
 */
module LegacyRecipes {
  import opened Outcomes
  import opened Machine
  import opened Decimal
  import opened RedisModel
  import opened Paging
  import opened Recipes
  import opened RecipeLaws
  import opened RecipeHistory

  /** `time.Duration`: an int64 count of nanoseconds. */
  type Duration = Int64

  /** `Duration.String` and `time.ParseDuration`. */
  datatype DurationText = DurationText(format: Duration -> string, parse: string -> Option<Duration>)

  /** The `recipe` struct of main.go. */
  datatype LegacyRecipe = LegacyRecipe(
    id: Int64,
    title: string,
    difficulty: string,
    prepPeriod: Duration,
    methodText: string,
    categories: Option<seq<string>>,
    ingredients: Option<seq<string>>,
    images: Option<seq<string>>)

  /** The field values save hands to Redis: the duration goes out as its text. */
  function Stored(r: LegacyRecipe, text: DurationText): (st: Recipe)
    ensures st.id == r.id && st.title == r.title && st.difficulty == r.difficulty && st.methodText == r.methodText
    ensures st.categories == r.categories && st.ingredients == r.ingredients && st.images == r.images
    ensures st.prepPeriod == text.format(r.prepPeriod)
  {
    Recipe(r.id, r.title, r.difficulty, text.format(r.prepPeriod), r.methodText, r.categories, r.ingredients, r.images)
  }

  /** main.go's save: the statements of recipe.go's save over the stored field values. */
  function Save(s: Store, r: LegacyRecipe, text: DurationText): (out: SaveResult)
    ensures r.id == 0 && s.counter == MaxInt64 ==> out == SaveResult(s, 0, Fail(CounterOverflow))
    ensures r.id == 0 && s.counter < MaxInt64 ==> out.id == s.counter + 1 && out.store.counter == out.id
    ensures r.id != 0 ==> out.id == r.id && out.store.counter == s.counter
    ensures out.outcome.Pass? ==> out.store.index == if r.id == 0 then s.index + [out.id] else s.index
    ensures out.outcome == Fail(ExecAborted) <==>
              (r.id != 0 || s.counter < MaxInt64) &&
              exists f :: Stored(r, text).Field(f) == Some([]) && (out.id, f) !in s.lists
    ensures out.outcome.Pass? <==>
              (r.id != 0 || s.counter < MaxInt64) &&
              forall f :: !(Stored(r, text).Field(f) == Some([]) && (out.id, f) !in s.lists)
    ensures out.outcome.Fail? ==> out.store.index == s.index && out.store.hashes == s.hashes && out.store.lists == s.lists
    ensures out.outcome.Pass? ==>
              out.store.hashes ==
              s.hashes[out.id := HashRecord(FormatInt(out.id), r.title, r.difficulty, text.format(r.prepPeriod), r.methodText)]
    ensures forall key | key in s.lists :: key in out.store.lists && out.store.lists[key] == s.lists[key]
    ensures forall key | key in out.store.lists && key !in s.lists ::
              key.0 == out.id && out.store.lists[key] != [] && Stored(r, text).Field(key.1) == Some(out.store.lists[key])
    ensures out.outcome.Pass? ==> (r.categories.Some? ==> (out.id, Categories) in out.store.lists)
    ensures out.outcome.Pass? ==> (r.ingredients.Some? ==> (out.id, Ingredients) in out.store.lists)
    ensures out.outcome.Pass? ==> (r.images.Some? ==> (out.id, Images) in out.store.lists)
  {
    var stored := Stored(r, text);
    assert stored.Field(Categories) == r.categories;
    assert stored.Field(Ingredients) == r.ingredients;
    assert stored.Field(Images) == r.images;
    Recipes.Save(s, stored)
  }

  /** main.go's load: a prep period that does not parse loads as zero, without an error. */
  function Load(s: Store, id: Int64, text: DurationText): (r: Result<LegacyRecipe, Error>)
    ensures r.Err? <==> id <= 0
    ensures r.Err? ==> r.error == InvalidId
    ensures r.Ok? ==> r.value.id == id
    ensures r.Ok? ==> r.value.title == HashAt(s, id).title && r.value.difficulty == HashAt(s, id).difficulty
    ensures r.Ok? ==> r.value.methodText == HashAt(s, id).methodText
    ensures r.Ok? && text.parse(HashAt(s, id).prepPeriod).Some? ==>
              r.value.prepPeriod == text.parse(HashAt(s, id).prepPeriod).value
    ensures r.Ok? && text.parse(HashAt(s, id).prepPeriod).None? ==> r.value.prepPeriod == 0
    ensures r.Ok? ==> r.value.categories == Some(ListAt(s, id, Categories))
    ensures r.Ok? ==> r.value.ingredients == Some(ListAt(s, id, Ingredients))
    ensures r.Ok? ==> r.value.images == Some(ListAt(s, id, Images))
  {
    match Recipes.Load(s, id)
    case Err(e) => Err(e)
    case Ok(v) =>
      assert v.Field(Categories) == v.categories;
      assert v.Field(Ingredients) == v.ingredients;
      assert v.Field(Images) == v.images;
      Ok(LegacyRecipe(v.id, v.title, v.difficulty, text.parse(v.prepPeriod).GetOr(0), v.methodText,
                      v.categories, v.ingredients, v.images))
  }

  /**
    One HMGET recipe:<id> title per window entry, in order; the first id without a
    hash stops the loop (the Go code panics there).
   */
  function Titles(s: Store, ids: seq<int>): (r: Result<seq<string>, Error>)
    ensures r.Ok? <==> forall i :: 0 <= i < |ids| ==> ids[i] in s.hashes
    ensures r.Err? ==> r.error.MissingHash? && r.error.id in ids && r.error.id !in s.hashes
    ensures r.Ok? ==> |r.value| == |ids|
    ensures r.Ok? ==> forall i :: 0 <= i < |ids| ==> r.value[i] == s.hashes[ids[i]].title
    decreases |ids|
  {
    if |ids| == 0 then Ok([])
    else if ids[0] !in s.hashes then Err(MissingHash(ids[0]))
    else
      match Titles(s, ids[1..])
      case Ok(rest) => Ok([s.hashes[ids[0]].title] + rest)
      case Err(e) => Err(e)
  }

  /** main.go's list, with the window bounds computed over unbounded integers. */
  function ListTitles(s: Store, page: Int64): (r: Result<seq<string>, Error>)
    ensures page <= 0 ==> r == Err(InvalidPage)
    ensures page > 0 ==>
              var w := s.index[Min((page - 1) * PageSize, |s.index|)..Min(page * PageSize, |s.index|)];
              && (r.Ok? <==> forall i :: 0 <= i < |w| ==> w[i] in s.hashes)
              && (r.Ok? ==> |r.value| == |w| <= PageSize)
              && (r.Ok? ==> forall i :: 0 <= i < |w| ==> r.value[i] == s.hashes[w[i]].title)
  {
    if page <= 0 then Err(InvalidPage) else Titles(s, Window(s.index, page))
  }

  /** main.go's list as written: the window bounds wrap in int64 arithmetic. */
  function ListTitlesAsWritten(s: Store, page: Int64): (r: Result<seq<string>, Error>)
    ensures page <= 0 ==> r == Err(InvalidPage)
    ensures page > 0 && r.Ok? ==> |r.value| <= |s.index|
  {
    if page <= 0 then Err(InvalidPage) else Titles(s, WindowAsWritten(s.index, page))
  }

  /**
    After a successful save under a positive id, load returns the saved fields;
    the prep period comes back whenever parsing its text gives it back, and each
    list holds the value of the first save that wrote it.
   */
  lemma SaveLoadRoundTrip(s: Store, r: LegacyRecipe, text: DurationText)
    requires Save(s, r, text).outcome.Pass?
    requires Save(s, r, text).id > 0
    requires text.parse(text.format(r.prepPeriod)) == Some(r.prepPeriod)
    ensures var out := Save(s, r, text);
            Load(out.store, out.id, text) ==
            Ok(LegacyRecipe(out.id, r.title, r.difficulty, r.prepPeriod, r.methodText,
                            Some(FirstWrite(s, out.id, Categories, r.categories)),
                            Some(FirstWrite(s, out.id, Ingredients, r.ingredients)),
                            Some(FirstWrite(s, out.id, Images, r.images))))
  {
  }

  /** On a well-formed store, list returns the titles of the window's index entries, in index order. */
  lemma ListTitlesIsIndexSlice(s: Store, page: Int64)
    requires Wf(s)
    requires page > 0
    ensures ListTitles(s, page).Ok?
    ensures var w := s.index[Min((page - 1) * PageSize, |s.index|)..Min(page * PageSize, |s.index|)];
            && |ListTitles(s, page).value| == |w|
            && forall i :: 0 <= i < |w| ==> ListTitles(s, page).value[i] == s.hashes[w[i]].title
  {
  }

  /** Even with wrapped bounds, main.go's list as written returns at most one page of titles. */
  lemma ListTitlesAsWrittenAtMostPage(s: Store, page: Int64)
    requires Wf(s)
    requires page > 0
    ensures ListTitlesAsWritten(s, page).Ok? ==> |ListTitlesAsWritten(s, page).value| <= PageSize
  {
    IndexLengthBound(s);
    WindowAsWrittenAtMostPage(s.index, page);
  }

  /** Up to the largest page whose bounds fit in an int64, list as written agrees with `ListTitles`. */
  lemma ListTitlesAsWrittenIsExact(s: Store, page: Int64)
    requires page <= MaxExactPage
    ensures ListTitlesAsWritten(s, page) == ListTitles(s, page)
  {
  }

  /** The same wrap-around as in recipe.go: page 4611686018427387905 lists page 1 again. */
  lemma ListTitlesAsWrittenRepeatsFirstPage(s: Store)
    requires Wf(s)
    requires |s.index| > 0
    ensures ListTitlesAsWritten(s, WrappingPage) == ListTitles(s, 1)
    ensures |ListTitles(s, 1).value| > 0
    ensures ListTitles(s, WrappingPage) == Ok([])
  {
    IndexLengthBound(s);
    WrappingPageRepeatsFirstPage(s.index);
  }

  /** The recipe initDB saves on iteration `i`. */
  function SeedRecipe(i: nat): (r: LegacyRecipe)
    ensures r.id == 0 && r.title == "PanCake-" + FormatInt(i)
    ensures r.difficulty == "easy" && r.methodText == ""
    ensures r.prepPeriod == 10 * 60 * 1_000_000_000
    ensures r.categories == Some(["breakfast", "eastern"]) && r.ingredients == Some(["eggs", "corn"])
    ensures r.images == Some(["url1", "url2"])
  {
    LegacyRecipe(0, "PanCake-" + FormatInt(i), "easy", 600_000_000_000, "",
                 Some(["breakfast", "eastern"]), Some(["eggs", "corn"]), Some(["url1", "url2"]))
  }

  /** The store after the first `n` iterations of initDB's loop, from an empty server. */
  function SeedStore(n: nat, text: DurationText): Store {
    Replay(EmptyStore, SeedRecipes(n, text))
  }

  lemma SeedIsFreshCreate(i: nat, text: DurationText)
    ensures FreshCreate(Stored(SeedRecipe(i), text))
  {
  }

  /** The recipes initDB's first `n` iterations hand to recipe.go's save. */
  function SeedRecipes(n: nat, text: DurationText): (rs: seq<Recipe>)
    ensures |rs| == n
    ensures forall i :: 0 <= i < n ==> FreshCreate(rs[i]) && rs[i].title == "PanCake-" + FormatInt(i)
  {
    var rs := seq(n, i requires 0 <= i < n => Stored(SeedRecipe(i), text));
    assert forall i :: 0 <= i < n ==> rs[i] == Stored(SeedRecipe(i), text);
    forall i | 0 <= i < n
      ensures FreshCreate(rs[i])
    {
      SeedIsFreshCreate(i, text);
    }
    rs
  }

  /** On the store that numbered creates leave, page `page` lists the titles at positions [(page-1)*20, page*20). */
  lemma NumberedTitles(t: Store, rs: seq<Recipe>, page: Int64)
    requires Numbered(t, rs)
    requires page > 0
    ensures ListTitles(t, page).Ok?
    ensures var from := Min((page - 1) * PageSize, |rs|);
            var titles := ListTitles(t, page).value;
            && |titles| == Min(page * PageSize, |rs|) - from
            && forall i :: 0 <= i < |titles| ==> titles[i] == rs[from + i].title
  {
    NumberedWindow(t, rs, page);
    var from := Min((page - 1) * PageSize, |rs|);
    var w := Window(t.index, page);
    var titles := ListTitles(t, page).value;
    forall i | 0 <= i < |titles|
      ensures titles[i] == rs[from + i].title
    {
      assert titles[i] == t.hashes[w[i]].title;
    }
  }

  /**
    initDB's hundred creates number the recipes 1..100; page 5 lists
    PanCake-80 .. PanCake-99 and page 6 is empty.
   */
  lemma InitDBSeeds(text: DurationText)
    ensures SeedStore(100, text).index == seq(100, i => i + 1)
    ensures ListTitles(SeedStore(100, text), 5).Ok?
    ensures |ListTitles(SeedStore(100, text), 5).value| == 20
    ensures forall i :: 0 <= i < 20 ==> ListTitles(SeedStore(100, text), 5).value[i] == "PanCake-" + FormatInt(80 + i)
    ensures ListTitles(SeedStore(100, text), 6) == Ok([])
  {
    var rs := SeedRecipes(100, text);
    CreatesFromEmpty(rs);
    NumberedTitles(SeedStore(100, text), rs, 5);
    NumberedTitles(SeedStore(100, text), rs, 6);
  }
}

=== FILE: machine.dfy ===
/** Go's 64-bit signed integers, written out over Dafny's unbounded `int`. */
module Machine {

  const MinInt64: int := -0x8000_0000_0000_0000
  const MaxInt64: int := 0x7fff_ffff_ffff_ffff
  const Modulus64: int := 0x1_0000_0000_0000_0000
  const MaxUint64: int := 0xffff_ffff_ffff_ffff

  /** Go `int64`, and Go `int` on a 64-bit build, which is the build this model assumes. */
  type Int64 = x: int | -0x8000_0000_0000_0000 <= x <= 0x7fff_ffff_ffff_ffff

  /** Two's-complement wrap-around of Go's int64 arithmetic: the unique int64 congruent to `x`. */
  function Wrap64(x: int): (r: Int64)
    ensures MinInt64 <= x <= MaxInt64 ==> r == x
    ensures (x - r) % Modulus64 == 0
  {
    (x - MinInt64) % Modulus64 + MinInt64
  }

  /** Saturation used by `strconv.ParseInt` when a decimal is out of range. */
  function Clamp64(x: int): (r: Int64)
    ensures MinInt64 <= x <= MaxInt64 ==> r == x
    ensures x > MaxInt64 ==> r == MaxInt64
    ensures x < MinInt64 ==> r == MinInt64
  {
    if x > MaxInt64 then MaxInt64 else if x < MinInt64 then MinInt64 else x
  }
}

=== FILE: outcomes.dfy ===
/** Failure-carrying values shared by every module of the model. */
module Outcomes {

  /** A value that may be absent; `None` stands for a Go `nil` slice. */
  datatype Option<+T> = None | Some(value: T) {
    function GetOr(default: T): T {
      match this
      case Some(v) => v
      case None => default
    }
  }

  /** The result of an operation that returns a value or a Go `error`. */
  datatype Result<+T, +E> = Ok(value: T) | Err(error: E)

  /** The result of an operation that returns only a Go `error`. */
  datatype Outcome<+E> = Pass | Fail(error: E)
}

=== FILE: paging.dfy ===
/** The page window `list` reads from the `recipes` index. */
module Paging {
  import opened Machine
  import opened RedisModel

  const PageSize: int := 20

  /**
    LRANGE recipes (page-1)*20 page*20-1, computed over unbounded integers:
    exactly the positions [(page-1)*20, page*20) of the index, cut at its end.
   */
  function Window<T>(xs: seq<T>, page: int): (w: seq<T>)
    requires page >= 1
    ensures w == xs[Min((page - 1) * PageSize, |xs|)..Min(page * PageSize, |xs|)]
    ensures |w| <= PageSize
    ensures (page - 1) * PageSize >= |xs| <==> w == []
  {
    LRange(xs, (page - 1) * PageSize, page * PageSize - 1)
  }

  /** Position `position` of a list lies in the window of page position/20 + 1, at offset position%20. */
  lemma PositionInWindow<T>(xs: seq<T>, position: nat)
    requires position < |xs|
    ensures var page := position / PageSize + 1;
            var w := Window(xs, page);
            position % PageSize < |w| && w[position % PageSize] == xs[position]
  {
    var page := position / PageSize + 1;
    assert (page - 1) * PageSize + position % PageSize == position;
  }

  /** The same LRANGE with both bounds computed in Go's wrapping int64 arithmetic. */
  function WindowAsWritten<T>(xs: seq<T>, page: Int64): (w: seq<T>)
    requires page >= 1
    ensures |w| <= |xs|
    ensures page <= MaxExactPage ==> w == Window(xs, page)
  {
    LRange(xs, Wrap64((page - 1) * PageSize), Wrap64(page * PageSize - 1))
  }

  /**
    Even when the bounds wrap, `to` is `from + 19` modulo 2^64, so the window as
    written never holds more than a page of entries.
   */
  lemma WindowAsWrittenAtMostPage<T>(xs: seq<T>, page: Int64)
    requires page >= 1
    requires |xs| <= MaxInt64
    ensures |WindowAsWritten(xs, page)| <= PageSize
  {
    var from, to := Wrap64((page - 1) * PageSize), Wrap64(page * PageSize - 1);
    assert (to - from - (PageSize - 1)) % Modulus64 == 0;
    LRangeOfTwoBoundsAPageApart(xs, from, to);
  }

  /** Int64 bounds `PageSize - 1` apart modulo 2^64 select at most a page. */
  lemma LRangeOfTwoBoundsAPageApart<T>(xs: seq<T>, from: Int64, to: Int64)
    requires |xs| <= MaxInt64
    requires (to - from - (PageSize - 1)) % Modulus64 == 0
    ensures |LRange(xs, from, to)| <= PageSize
  {
    assert to == from + PageSize - 1 || to == from + PageSize - 1 - Modulus64;
  }

  /** The largest page whose bounds fit in an int64. */
  const MaxExactPage: int := 461168601842738790

  /** Up to `MaxExactPage` nothing wraps, so the code as written reads the intended window. */
  lemma WindowAsWrittenIsExact<T>(xs: seq<T>, page: Int64)
    requires 1 <= page <= MaxExactPage
    ensures WindowAsWritten(xs, page) == Window(xs, page)
  {
  }

  /** A page number at which both bounds wrap round to those of page 1. */
  const WrappingPage: Int64 := 0x4000_0000_0000_0001

  /**
    At `WrappingPage` the code as written computes from = 0 and to = 19, so it
    reads page 1 again, while the window that page names lies past the end of
    any index Redis can hold.
   */
  lemma WrappingPageRepeatsFirstPage<T>(xs: seq<T>)
    requires |xs| <= MaxInt64
    ensures WindowAsWritten(xs, WrappingPage) == Window(xs, 1)
    ensures Window(xs, WrappingPage) == []
  {
    assert Wrap64((WrappingPage - 1) * PageSize) == 0;
    assert Wrap64(WrappingPage * PageSize - 1) == PageSize - 1;
  }
}

=== FILE: recipe_history.dfy ===
/** Properties of recipe.go's save over whole sequences of saves. */
module RecipeHistory {
  import opened Outcomes
  import opened Machine
  import opened Decimal
  import opened RedisModel
  import opened Paging
  import opened Recipes
  import opened RecipeLaws

  /** The store after running the saves `rs` one after another, failed ones included. */
  function Replay(s: Store, rs: seq<Recipe>): Store
    decreases |rs|
  {
    if |rs| == 0 then s else Replay(Save(s, rs[0]).store, rs[1..])
  }

  lemma {:induction false} ReplaySnoc(s: Store, rs: seq<Recipe>, r: Recipe)
    ensures Replay(s, rs + [r]) == Save(Replay(s, rs), r).store
    decreases |rs|
  {
    if |rs| == 0 {
      assert ([r])[1..] == [];
    } else {
      assert (rs + [r])[0] == rs[0];
      assert (rs + [r])[1..] == rs[1..] + [r];
      ReplaySnoc(Save(s, rs[0]).store, rs[1..], r);
    }
  }

  /** Any sequence of saves from a well-formed store keeps the layout invariant. */
  lemma {:induction false} ReplayPreservesWf(s: Store, rs: seq<Recipe>)
    requires Wf(s)
    ensures Wf(Replay(s, rs))
    decreases |rs|
  {
    if |rs| > 0 {
      SavePreservesWf(s, rs[0]);
      ReplayPreservesWf(Save(s, rs[0]).store, rs[1..]);
    }
  }

  /** The counter never goes down and the index only grows at its end. */
  lemma {:induction false} ReplayAppendOnly(s: Store, rs: seq<Recipe>)
    ensures Replay(s, rs).counter >= s.counter
    ensures |s.index| <= |Replay(s, rs).index|
    ensures Replay(s, rs).index[..|s.index|] == s.index
    decreases |rs|
  {
    if |rs| > 0 {
      var next := Save(s, rs[0]).store;
      ReplayAppendOnly(next, rs[1..]);
      assert next.index[..|s.index|] == s.index;
    }
  }

  /** Write-once: a list key, once it exists, keeps its value through every later save. */
  lemma {:induction false} ReplayWriteOnce(s: Store, rs: seq<Recipe>, key: (int, ListField))
    requires key in s.lists
    ensures key in Replay(s, rs).lists
    ensures Replay(s, rs).lists[key] == s.lists[key]
    decreases |rs|
  {
    if |rs| > 0 {
      ReplayWriteOnce(Save(s, rs[0]).store, rs[1..], key);
    }
  }

  /**
    The first save that supplies a list field for an id fixes what load returns
    for it, whatever saves follow.
   */
  lemma FirstWriteWins(s: Store, r: Recipe, later: seq<Recipe>, f: ListField)
    requires Save(s, r).outcome.Pass?
    requires Save(s, r).id > 0
    requires r.Field(f).Some?
    requires (Save(s, r).id, f) !in s.lists
    ensures Load(Replay(Save(s, r).store, later), Save(s, r).id).Ok?
    ensures Load(Replay(Save(s, r).store, later), Save(s, r).id).value.Field(f) == r.Field(f)
  {
    var out := Save(s, r);
    assert (out.id, f) in out.store.lists;
    ReplayWriteOnce(out.store, later, (out.id, f));
  }

  /** Any sequence of saves run one after another on a server that starts empty keeps the layout invariant. */
  lemma ServerIsWf(rs: seq<Recipe>)
    ensures Wf(Replay(EmptyStore, rs))
  {
    EmptyStoreIsWf();
    ReplayPreservesWf(EmptyStore, rs);
  }

  /**
    Creates hand out strictly increasing ids: a create that follows another,
    with any saves in between, gets a larger id.
   */
  lemma CreatesIncrease(s: Store, first: Recipe, between: seq<Recipe>, second: Recipe)
    requires first.id == 0 && second.id == 0
    requires Save(s, first).outcome != Fail(CounterOverflow)
    requires Save(Replay(Save(s, first).store, between), second).outcome != Fail(CounterOverflow)
    ensures Save(s, first).id < Save(Replay(Save(s, first).store, between), second).id
  {
    ReplayAppendOnly(Save(s, first).store, between);
  }

  /** A create the service can complete: no id yet and no empty non-nil list. */
  predicate FreshCreate(r: Recipe) {
    r.id == 0 && forall f :: r.Field(f) != Some([])
  }

  /**
    Below the counter's limit a create whose lists are nil or non-empty always
    succeeds: it takes the next id, appends it to the index and writes its hash.
   */
  lemma FreshCreateAppends(s: Store, r: Recipe)
    requires FreshCreate(r)
    requires s.counter < MaxInt64
    ensures Save(s, r).outcome == Pass
    ensures Save(s, r).id == s.counter + 1
    ensures Save(s, r).store.counter == s.counter + 1
    ensures Save(s, r).store.index == s.index + [s.counter + 1]
    ensures Save(s, r).store.hashes == s.hashes[s.counter + 1 := Scalars(r, s.counter + 1)]
  {
  }

  /**
    `t` is the store that the creates `rs` leave on an empty server: the counter
    stands at |rs|, the index is 1..|rs|, and recipe:<k> holds the k-th recipe.
   */
  predicate Numbered(t: Store, rs: seq<Recipe>) {
    && t.counter == |rs|
    && t.index == seq(|rs|, i => i + 1)
    && forall id :: 1 <= id <= |rs| ==> id in t.hashes && t.hashes[id] == Scalars(rs[id - 1], id)
  }

  lemma NumberedStep(t: Store, rs: seq<Recipe>, r: Recipe)
    requires Numbered(t, rs)
    requires FreshCreate(r)
    requires |rs| < MaxInt64
    ensures Numbered(Save(t, r).store, rs + [r])
  {
  }

  /**
    Creates from an empty server number the recipes 1, 2, ... in order: the
    index is exactly 1..n and recipe:<k> holds the k-th recipe's fields.
   */
  lemma {:induction false} CreatesFromEmpty(rs: seq<Recipe>)
    requires |rs| <= MaxInt64
    requires forall i :: 0 <= i < |rs| ==> FreshCreate(rs[i])
    ensures Numbered(Replay(EmptyStore, rs), rs)
    decreases |rs|
  {
    if |rs| > 0 {
      var prefix := rs[..|rs| - 1];
      var last := rs[|rs| - 1];
      assert prefix + [last] == rs;
      CreatesFromEmpty(prefix);
      ReplaySnoc(EmptyStore, prefix, last);
      NumberedStep(Replay(EmptyStore, prefix), prefix, last);
    }
  }

  /** A create followed by an update: the update replaces the title but not the categories. */
  lemma PanCakeScenario()
    ensures var first := Save(EmptyStore, Recipe(0, "PanCake", "", "", "", Some(["breakfast"]), None, None));
            && first == SaveResult(first.store, 1, Pass)
            && Load(first.store, 1).value.title == "PanCake"
            && Load(first.store, 1).value.categories == Some(["breakfast"])
            && var second := Save(first.store, Recipe(1, "PanCake v2", "", "", "", Some(["lunch"]), None, None));
               && second.outcome == Pass
               && Load(second.store, 1).value.title == "PanCake v2"
               && Load(second.store, 1).value.categories == Some(["breakfast"])
  {
  }

  /** The window of page `page` in a numbered store: ids from+1 onwards, each with its own text and the title of its recipe. */
  lemma NumberedWindow(t: Store, rs: seq<Recipe>, page: Int64)
    requires Numbered(t, rs)
    requires page > 0
    ensures var from := Min((page - 1) * PageSize, |rs|);
            var w := Window(t.index, page);
            && |w| == Min(page * PageSize, |rs|) - from
            && forall i :: 0 <= i < |w| ==>
                 && w[i] == from + i + 1 && w[i] in t.hashes
                 && t.hashes[w[i]].id == FormatInt(w[i]) && t.hashes[w[i]].title == rs[from + i].title
  {
    var from := Min((page - 1) * PageSize, |rs|);
    var w := Window(t.index, page);
    forall i | 0 <= i < |w|
      ensures w[i] == from + i + 1 && w[i] in t.hashes
      ensures t.hashes[w[i]].id == FormatInt(w[i]) && t.hashes[w[i]].title == rs[from + i].title
    {
      assert w[i] == t.index[from + i];
    }
  }

  /**
    On the store that numbered creates leave, page `page` lists the recipes at
    positions [(page-1)*20, page*20), each under its own id and title.
   */
  lemma NumberedPage(t: Store, rs: seq<Recipe>, page: Int64)
    requires Numbered(t, rs)
    requires page > 0
    ensures List(t, page).Ok?
    ensures var from := Min((page - 1) * PageSize, |rs|);
            var listed := List(t, page).value;
            && |listed| == Min(page * PageSize, |rs|) - from
            && forall i :: 0 <= i < |listed| ==> listed[i].id == from + i + 1 && listed[i].title == rs[from + i].title
  {
    NumberedWindow(t, rs, page);
    var from := Min((page - 1) * PageSize, |rs|);
    var w := Window(t.index, page);
    var listed := List(t, page).value;
    forall i | 0 <= i < |listed|
      ensures listed[i].id == from + i + 1 && listed[i].title == rs[from + i].title
    {
      AtoiFormatInt(w[i]);
      assert listed[i].id == Atoi(t.hashes[w[i]].id);
    }
  }

  /** Twenty-five creates fill page 1 with ids 1..20, page 2 with 21..25, and leave page 3 empty. */
  lemma TwentyFiveCreates(rs: seq<Recipe>)
    requires |rs| == 25
    requires forall i :: 0 <= i < |rs| ==> FreshCreate(rs[i])
    ensures var t := Replay(EmptyStore, rs);
            && List(t, 1).Ok? && |List(t, 1).value| == 20
            && (forall i :: 0 <= i < 20 ==> List(t, 1).value[i].id == i + 1)
            && List(t, 2).Ok? && |List(t, 2).value| == 5
            && (forall i :: 0 <= i < 5 ==> List(t, 2).value[i].id == i + 21)
            && List(t, 3) == Ok([])
  {
    CreatesFromEmpty(rs);
    var t := Replay(EmptyStore, rs);
    NumberedPage(t, rs, 1);
    NumberedPage(t, rs, 2);
    NumberedPage(t, rs, 3);
  }
}

=== FILE: recipe_laws.dfy ===
/**
  Properties of one save, load or list of recipe.go, and the layout invariant that
  saves keep.
 */
module RecipeLaws {
  import opened Outcomes
  import opened Machine
  import opened Decimal
  import opened RedisModel
  import opened Paging
  import opened Recipes

  predicate StrictlyIncreasing(xs: seq<int>) {
    forall i, j :: 0 <= i < j < |xs| ==> xs[i] < xs[j]
  }

  /**
    The layout saves keep: the counter is non-negative, the index is strictly
    increasing with every entry in 1..counter, every indexed id has a hash, every
    hash stores its own id in decimal, and no list key holds an empty list.
   */
  predicate Wf(s: Store) {
    && 0 <= s.counter
    && StrictlyIncreasing(s.index)
    && (forall i :: 0 <= i < |s.index| ==> 1 <= s.index[i] <= s.counter)
    && (forall i :: 0 <= i < |s.index| ==> s.index[i] in s.hashes)
    && (forall id | id in s.hashes :: s.hashes[id].id == FormatInt(id))
    && (forall key | key in s.lists :: s.lists[key] != [])
  }

  /** An empty server satisfies the layout invariant. */
  lemma EmptyStoreIsWf()
    ensures Wf(EmptyStore)
  {
  }

  /** Every save, successful or not, keeps the layout invariant. */
  lemma SavePreservesWf(s: Store, r: Recipe)
    requires Wf(s)
    ensures Wf(Save(s, r).store)
  {
  }

  /** The i-th entry of a strictly increasing sequence of positive ids is at least i + 1. */
  lemma {:induction false} IncreasingPositiveEntries(xs: seq<int>, i: nat)
    requires StrictlyIncreasing(xs)
    requires forall k :: 0 <= k < |xs| ==> 1 <= xs[k]
    requires i < |xs|
    ensures xs[i] >= i + 1
  {
    if i > 0 {
      IncreasingPositiveEntries(xs, i - 1);
    }
  }

  /** The index never holds more entries than ids the counter has handed out. */
  lemma IndexLengthBound(s: Store)
    requires Wf(s)
    ensures |s.index| <= s.counter
  {
    if |s.index| > 0 {
      IncreasingPositiveEntries(s.index, |s.index| - 1);
    }
  }

  /**
    After a successful save under a positive id, load returns the saved scalar
    fields, and each list field holds the value of the first save that wrote it.
   */
  lemma SaveLoadRoundTrip(s: Store, r: Recipe)
    requires Save(s, r).outcome.Pass?
    requires Save(s, r).id > 0
    ensures var out := Save(s, r);
            Load(out.store, out.id) == Ok(Recipe(out.id, r.title, r.difficulty, r.prepPeriod, r.methodText,
                                                 Some(FirstWrite(s, out.id, Categories, r.categories)),
                                                 Some(FirstWrite(s, out.id, Ingredients, r.ingredients)),
                                                 Some(FirstWrite(s, out.id, Images, r.images))))
  {
  }

  /**
    On a well-formed store, list never fails for a positive page: it returns the
    index entries at positions [(page-1)*20, page*20), in index order, each id
    parsed back from its hash, with that hash's title.
   */
  lemma ListIsIndexSlice(s: Store, page: Int64)
    requires Wf(s)
    requires page > 0
    ensures List(s, page).Ok?
    ensures var w := s.index[Min((page - 1) * PageSize, |s.index|)..Min(page * PageSize, |s.index|)];
            && |List(s, page).value| == |w|
            && forall i :: 0 <= i < |w| ==>
                 List(s, page).value[i].id == w[i] && List(s, page).value[i].title == s.hashes[w[i]].title
  {
    var w := s.index[Min((page - 1) * PageSize, |s.index|)..Min(page * PageSize, |s.index|)];
    forall i | 0 <= i < |w|
      ensures Atoi(s.hashes[w[i]].id) == w[i]
    {
      AtoiFormatInt(w[i]);
    }
  }

  /** Every index entry shows up on page position/20 + 1, at position position%20. */
  lemma EntryOnItsPage(s: Store, position: nat)
    requires Wf(s)
    requires position < |s.index|
    ensures position / PageSize + 1 <= MaxInt64
    ensures var page := position / PageSize + 1;
            && List(s, page).Ok?
            && position % PageSize < |List(s, page).value|
            && List(s, page).value[position % PageSize].id == s.index[position]
  {
    IndexLengthBound(s);
    var page: Int64 := position / PageSize + 1;
    PositionInWindow(s.index, position);
    ListedAt(s, page, position % PageSize);
  }

  /** The entry at offset `k` of page `page` carries the id at offset `k` of the page's window. */
  lemma ListedAt(s: Store, page: Int64, k: nat)
    requires Wf(s)
    requires page > 0
    requires k < |Window(s.index, page)|
    ensures List(s, page).Ok? && k < |List(s, page).value|
    ensures List(s, page).value[k].id == Window(s.index, page)[k]
  {
    ListIsIndexSlice(s, page);
  }

  /** Even with wrapped bounds, list as written returns at most one page of entries. */
  lemma ListAsWrittenAtMostPage(s: Store, page: Int64)
    requires Wf(s)
    requires page > 0
    ensures ListAsWritten(s, page).Ok? ==> |ListAsWritten(s, page).value| <= PageSize
  {
    IndexLengthBound(s);
    WindowAsWrittenAtMostPage(s.index, page);
  }

  /** Up to the largest page whose bounds fit in an int64, list as written agrees with `List`. */
  lemma ListAsWrittenIsExact(s: Store, page: Int64)
    requires page <= MaxExactPage
    ensures ListAsWritten(s, page) == List(s, page)
  {
  }

  /**
    The wrap-around in list as written: on any non-empty well-formed store, page
    4611686018427387905 returns page 1 again, where the empty page is meant.
   */
  lemma ListAsWrittenRepeatsFirstPage(s: Store)
    requires Wf(s)
    requires |s.index| > 0
    ensures ListAsWritten(s, WrappingPage) == List(s, 1)
    ensures |List(s, 1).value| > 0
    ensures List(s, WrappingPage) == Ok([])
  {
    IndexLengthBound(s);
    WrappingPageRepeatsFirstPage(s.index);
    ListIsIndexSlice(s, 1);
  }
}

=== FILE: recipes.dfy ===
/**
  recipe.go: the `recipe` entity and its `save`, `load` and `list` over the Redis
  layout of `RedisModel`. Each operation is a pure transition: `Save` returns the
  next store together with the id the recipe ends up with, `Load` a recipe or an
  error, `List` a page or an error.
 */
module Recipes {
  import opened Outcomes
  import opened Machine
  import opened Decimal
  import opened RedisModel
  import opened Paging

  /**
    The `recipe` struct. `id == 0` means "not yet assigned"; a `None` list is a nil
    slice, which save skips, and is distinct from `Some([])`.
   */
  datatype Recipe = Recipe(
    id: Int64,
    title: string,
    difficulty: string,
    prepPeriod: string,
    methodText: string,
    categories: Option<seq<string>>,
    ingredients: Option<seq<string>>,
    images: Option<seq<string>>)
  {
    /** The value of one of the three list fields. */
    function Field(f: ListField): Option<seq<string>> {
      match f
      case Categories => categories
      case Ingredients => ingredients
      case Images => images
    }
  }

  /** The errors the three operations return, and the one panic `list` can hit. */
  datatype Error =
    | InvalidId             // load: "invalid id"
    | InvalidPage           // list: "invalid page"
    | CounterOverflow       // INCR recipe_id refused: the increment would overflow int64
    | ExecAborted           // MULTI/EXEC discarded: an RPUSH was queued with no values
    | MissingHash(id: int)  // list: HMGET yields nil for a missing hash and `.(string)` panics

  /** What save leaves behind: the next store, the recipe's id after the call, and its error. */
  datatype SaveResult = SaveResult(store: Store, id: Int64, outcome: Outcome<Error>)

  /** The list value a key holds after a save of `values` under `id`, the first write winning. */
  function FirstWrite(s: Store, id: int, f: ListField, values: Option<seq<string>>): seq<string> {
    if (id, f) in s.lists then s.lists[(id, f)] else values.GetOr([])
  }

  /** The hash record HMSET writes for `r` under `id`: the id in decimal and the four scalar fields. */
  function Scalars(r: Recipe, id: int): HashRecord {
    HashRecord(FormatInt(id), r.title, r.difficulty, r.prepPeriod, r.methodText)
  }

  /**
    saveList for one field: the values to RPUSH, or `None` when the values are nil
    or the key already exists. The existence check goes to the server at once, so
    it reads the state before the batch runs.
   */
  function QueuedPush(s: Store, id: int, f: ListField, values: Option<seq<string>>): (q: Option<seq<string>>)
    ensures q.Some? <==> values.Some? && (id, f) !in s.lists
    ensures q.Some? ==> q == values
  {
    if values.None? then None
    else if (id, f) in s.lists then None
    else values
  }

  /** The effect of one queued RPUSH on the list keys. */
  function Push(lists: map<(int, ListField), seq<string>>, key: (int, ListField), q: Option<seq<string>>)
    : (pushed: map<(int, ListField), seq<string>>)
    ensures forall k | k in lists && k != key :: k in pushed && pushed[k] == lists[k]
    ensures forall k | k in pushed :: k in lists || k == key
    ensures key in pushed <==> key in lists || q.Some?
    ensures key in pushed ==> pushed[key] == if q.Some? then q.value else lists[key]
  {
    match q
    case Some(values) => lists[key := values]
    case None => lists
  }

  /** Whether saveList would queue an RPUSH with no values for field `f` of the recipe saved under `id`. */
  predicate PushesEmpty(s: Store, r: Recipe, id: int, f: ListField) {
    r.Field(f) == Some([]) && (id, f) !in s.lists
  }

  /**
    Write-once growth of the list keys from `s.lists`: every old key keeps its
    value, and a new key belongs to `id` and holds the caller's values for its field.
   */
  predicate ListsExtend(s: Store, r: Recipe, id: int, lists: map<(int, ListField), seq<string>>) {
    && (forall key | key in s.lists :: key in lists && lists[key] == s.lists[key])
    && (forall key | key in lists && key !in s.lists :: key.0 == id && r.Field(key.1) == Some(lists[key]))
  }

  /** One saveList call, applied to the lists after the earlier calls of the same batch. */
  function PushField(s: Store, r: Recipe, id: int, f: ListField, lists: map<(int, ListField), seq<string>>)
    : (pushed: map<(int, ListField), seq<string>>)
    requires ListsExtend(s, r, id, lists)
    ensures ListsExtend(s, r, id, pushed)
    ensures forall g | (id, g) in lists :: (id, g) in pushed
    ensures r.Field(f).Some? ==> (id, f) in pushed
  {
    Push(lists, (id, f), QueuedPush(s, id, f, r.Field(f)))
  }

  /**
    The three saveList calls for the recipe saved under `id`: each list field not
    yet stored gets the caller's values, and every other list key keeps its value.
   */
  function PushLists(s: Store, r: Recipe, id: int): (lists: map<(int, ListField), seq<string>>)
    ensures forall key | key in s.lists :: key in lists && lists[key] == s.lists[key]
    ensures forall key | key in lists && key !in s.lists :: key.0 == id && r.Field(key.1) == Some(lists[key])
    ensures forall f | r.Field(f).Some? :: (id, f) in lists
  {
    var withCategories := PushField(s, r, id, Categories, s.lists);
    var withIngredients := PushField(s, r, id, Ingredients, withCategories);
    PushField(s, r, id, Images, withIngredients)
  }

  /**
    The TxPipelined block for the recipe saved under `id`, run over the state after
    id allocation: RPUSH the id onto `recipes` when creating, HMSET all five hash
    fields, and the write-once list pushes. An RPUSH without values makes Redis
    discard the whole transaction.
   */
  function Commit(s: Store, r: Recipe, id: Int64, create: bool): (out: SaveResult)
    ensures out.id == id
    ensures out.outcome.Fail? <==> exists f :: PushesEmpty(s, r, id, f)
    ensures out.outcome.Fail? ==> out == SaveResult(s, id, Fail(ExecAborted))
    ensures out.outcome.Pass? ==> out.store.counter == s.counter
    ensures out.outcome.Pass? ==> out.store.index == if create then s.index + [id] else s.index
    ensures out.outcome.Pass? ==> out.store.hashes == s.hashes[id := Scalars(r, id)]
    ensures out.outcome.Pass? ==> out.store.lists == PushLists(s, r, id)
  {
    if PushesEmpty(s, r, id, Categories) || PushesEmpty(s, r, id, Ingredients) || PushesEmpty(s, r, id, Images) then
      SaveResult(s, id, Fail(ExecAborted))
    else
      var index := if create then s.index + [id] else s.index;
      SaveResult(Store(s.counter, index, s.hashes[id := Scalars(r, id)], PushLists(s, r, id)), id, Pass)
  }

  /** `(*recipe).save`: create when `id == 0`, otherwise update. */
  function Save(s: Store, r: Recipe): (out: SaveResult)
    // id allocation: INCR only on create, and the new counter value becomes the id,
    // even when the transaction that follows is discarded
    ensures r.id == 0 && s.counter == MaxInt64 ==> out == SaveResult(s, 0, Fail(CounterOverflow))
    ensures r.id == 0 && s.counter < MaxInt64 ==> out.id == s.counter + 1 && out.store.counter == out.id
    ensures r.id != 0 ==> out.id == r.id && out.store.counter == s.counter
    // the transaction is discarded exactly when an empty non-nil list would be pushed
    ensures out.outcome == Fail(ExecAborted) <==>
              (r.id != 0 || s.counter < MaxInt64) &&
              exists f :: r.Field(f) == Some([]) && (out.id, f) !in s.lists
    // and it succeeds exactly when neither INCR overflows nor an empty push is queued
    ensures out.outcome.Pass? <==>
              (r.id != 0 || s.counter < MaxInt64) &&
              forall f :: !(r.Field(f) == Some([]) && (out.id, f) !in s.lists)
    ensures out.outcome.Fail? ==> out.store.index == s.index && out.store.hashes == s.hashes && out.store.lists == s.lists
    // index: a successful create appends exactly the new id; nothing else touches it
    ensures out.outcome.Pass? ==> out.store.index == if r.id == 0 then s.index + [out.id] else s.index
    // hash: every field of recipe:<id> is overwritten, no other hash changes
    ensures out.outcome.Pass? ==>
              out.store.hashes == s.hashes[out.id := HashRecord(FormatInt(out.id), r.title, r.difficulty, r.prepPeriod, r.methodText)]
    // lists: write-once, and a new key holds exactly the caller's (non-empty) values for this id
    ensures forall key | key in s.lists :: key in out.store.lists && out.store.lists[key] == s.lists[key]
    ensures forall key | key in out.store.lists && key !in s.lists ::
              key.0 == out.id && out.store.lists[key] != [] && r.Field(key.1) == Some(out.store.lists[key])
    ensures out.outcome.Pass? ==> forall f | r.Field(f).Some? :: (out.id, f) in out.store.lists
  {
    if r.id == 0 then
      if s.counter == MaxInt64 then SaveResult(s, 0, Fail(CounterOverflow))
      else Commit(s.(counter := s.counter + 1), r, s.counter + 1, true)
    else
      Commit(s, r, r.id, false)
  }

  /** `(*recipe).load`: one HGETALL and three LRANGE 0 -1, with no not-found error. */
  function Load(s: Store, id: Int64): (r: Result<Recipe, Error>)
    ensures r.Err? <==> id <= 0
    ensures r.Err? ==> r.error == InvalidId
    ensures r.Ok? ==> r.value.id == id
    ensures r.Ok? && id !in s.hashes ==>
              r.value.title == "" && r.value.difficulty == "" && r.value.prepPeriod == "" && r.value.methodText == ""
    ensures r.Ok? && id in s.hashes ==>
              var h := s.hashes[id];
              r.value.title == h.title && r.value.difficulty == h.difficulty &&
              r.value.prepPeriod == h.prepPeriod && r.value.methodText == h.methodText
    ensures r.Ok? ==> forall f :: r.value.Field(f) == Some(if (id, f) in s.lists then s.lists[(id, f)] else [])
  {
    if id <= 0 then Err(InvalidId)
    else
      var h := HashAt(s, id);
      Ok(Recipe(id, h.title, h.difficulty, h.prepPeriod, h.methodText,
                Some(ListAt(s, id, Categories)), Some(ListAt(s, id, Ingredients)), Some(ListAt(s, id, Images))))
  }

  /** The `recipe{ID, Title}` list builds from one HMGET id title reply. */
  function Summary(h: HashRecord): (r: Recipe)
    ensures forall n: Int64 {:trigger FormatInt(n)} :: h.id == FormatInt(n) ==> r.id == n
    ensures r.title == h.title
    ensures r.difficulty == "" && r.prepPeriod == "" && r.methodText == ""
    ensures forall f :: r.Field(f).None?
  {
    FormatIntParsesBack();
    Recipe(Atoi(h.id), h.title, "", "", "", None, None, None)
  }

  /**
    The HMGET replies for a window of ids, turned into summaries in window order;
    the first id without a hash stops the loop (the Go code panics there).
   */
  function Summaries(s: Store, ids: seq<int>): (r: Result<seq<Recipe>, Error>)
    ensures r.Ok? <==> forall i :: 0 <= i < |ids| ==> ids[i] in s.hashes
    ensures r.Err? ==> r.error.MissingHash? && r.error.id in ids && r.error.id !in s.hashes
    ensures r.Ok? ==> |r.value| == |ids|
    ensures r.Ok? ==> forall i :: 0 <= i < |ids| ==>
              r.value[i].id == Atoi(s.hashes[ids[i]].id) && r.value[i].title == s.hashes[ids[i]].title
    decreases |ids|
  {
    if |ids| == 0 then Ok([])
    else if ids[0] !in s.hashes then Err(MissingHash(ids[0]))
    else
      match Summaries(s, ids[1..])
      case Ok(rest) => Ok([Summary(s.hashes[ids[0]])] + rest)
      case Err(e) => Err(e)
  }

  /** `list`, with the window bounds computed over unbounded integers. */
  function List(s: Store, page: Int64): (r: Result<seq<Recipe>, Error>)
    ensures page <= 0 ==> r == Err(InvalidPage)
    ensures page > 0 ==>
              var w := s.index[Min((page - 1) * PageSize, |s.index|)..Min(page * PageSize, |s.index|)];
              && (r.Ok? <==> forall i :: 0 <= i < |w| ==> w[i] in s.hashes)
              && (r.Ok? ==> |r.value| == |w| <= PageSize)
              && (r.Ok? ==> forall i :: 0 <= i < |w| ==>
                    r.value[i].id == Atoi(s.hashes[w[i]].id) && r.value[i].title == s.hashes[w[i]].title)
  {
    if page <= 0 then Err(InvalidPage) else Summaries(s, Window(s.index, page))
  }

  /** `list` as written: the window bounds wrap in int64 arithmetic. */
  function ListAsWritten(s: Store, page: Int64): (r: Result<seq<Recipe>, Error>)
    ensures page <= 0 ==> r == Err(InvalidPage)
    ensures page > 0 && r.Ok? ==> |r.value| <= |s.index|
  {
    if page <= 0 then Err(InvalidPage) else Summaries(s, WindowAsWritten(s.index, page))
  }
}

=== FILE: redis.dfy ===
/**
  The part of a Redis server the recipe service touches, as an immutable value:
  the `recipe_id` counter, the `recipes` index list, the `recipe:<id>` hashes and
  the `recipe:<id>:<field>` lists. Keys are kept abstract (an id, or an id and a
  field name) because the service only ever builds them from an id with `%d`,
  which is injective (see `Decimal.FormatIntInjective`).
 */
module RedisModel {
  import opened Machine

  /** The three per-recipe list keys: `recipe:<id>:categories|ingredients|images`. */
  datatype ListField = Categories | Ingredients | Images

  /** The five fields HMSET writes into `recipe:<id>` (`methodText` is the `method` field). */
  datatype HashRecord = HashRecord(id: string, title: string, difficulty: string, prepPeriod: string, methodText: string)

  /** What HGETALL of a missing key yields, read field by field: every field is the empty string. */
  const EmptyHash := HashRecord("", "", "", "", "")

  /**
    A Redis list key exists exactly when the list is non-empty (Redis deletes a list
    when its last element goes), so `lists` never needs an entry for an empty list.
   */
  datatype Store = Store(
    counter: Int64,
    index: seq<int>,
    hashes: map<int, HashRecord>,
    lists: map<(int, ListField), seq<string>>)

  /** A fresh server: a missing `recipe_id` reads as 0 for INCR. */
  const EmptyStore := Store(0, [], map[], map[])

  function Min(a: int, b: int): int {
    if a <= b then a else b
  }

  /** HGETALL `recipe:<id>`, looked up field by field. */
  function HashAt(s: Store, id: int): (h: HashRecord)
    ensures id !in s.hashes ==> h == EmptyHash
    ensures id in s.hashes ==> h == s.hashes[id]
  {
    if id in s.hashes then s.hashes[id] else EmptyHash
  }

  /** LRANGE `recipe:<id>:<field>` 0 -1: the whole list, empty when the key does not exist. */
  function ListAt(s: Store, id: int, f: ListField): (xs: seq<string>)
    ensures (id, f) in s.lists ==> xs == s.lists[(id, f)]
    ensures (id, f) !in s.lists ==> xs == []
  {
    LRange(if (id, f) in s.lists then s.lists[(id, f)] else [], 0, -1)
  }

  /**
    LRANGE key start stop: both bounds inclusive; a negative bound counts from the
    end; a start still below zero becomes 0, a stop past the end becomes the last
    position, and an empty range yields the empty list.
   */
  function LRange<T>(xs: seq<T>, start: int, stop: int): (r: seq<T>)
    ensures |r| <= |xs|
    ensures 0 <= start <= stop + 1 && 0 <= stop ==> r == xs[Min(start, |xs|)..Min(stop + 1, |xs|)]
    ensures start == 0 && stop == -1 ==> r == xs
  {
    var n := |xs|;
    var first := if start < 0 then n + start else start;
    var last := if stop < 0 then n + stop else stop;
    var from := if first < 0 then 0 else first;
    if from > last || from >= n then []
    else xs[from..(if last >= n then n - 1 else last) + 1]
  }
}
